=== FILE: README.md ===
# simplepypicache in Dafny

A model of the server core of simplepypicache. This is a caching proxy for a
"simple" package index. It has three parts, all in `simplepypicache/server.py`:

- **`Index`** keeps the list of all distribution names behind `/simple/`. The
  list is loaded from a JSON snapshot file or scraped from upstream. It is
  scraped again only after the index has sat idle for more than a day.
- **`single_package_index`** turns the `(url, type)` links scraped from a
  package's upstream page into the `(type, url, label)` rows of the local page.
- **`download_package`** has three outcomes. It redirects to upstream while a
  placeholder says the file is already being downloaded. It also redirects when
  upstream fails. Otherwise it streams the file to the client and, at the same
  time, writes it into a placeholder, then moves that placeholder into the
  static directory.

Everything is modelled as pure functions over immutable values:

- the clock is an integer counting microseconds;
- the disk is a map from path to bytes (`Files.FileSystem`);
- the remote scraper, the upstream HTTP response and the JSON codec are
  parameters.

Modules:

| file | module | models |
|---|---|---|
| `options.dfy` | `Options` | Python's `None` / a value |
| `seqs.dfy` | `Seqs` | reversal, concatenation of chunks |
| `text.dfy` | `Text` | `sub in s`, `s.replace(old, "")`, `os.path.basename`, `os.path.join` |
| `ordering.dfy` | `Ordering` | Python's string order, `list.sort()`, `list.sort(reverse=True)` |
| `files.dfy` | `Files` | the disk, `shutil.move` |
| `settings.dfy` | `Settings` | `PYPI_ROOT`, `CACHED_PACKAGES`, `STATIC_PACKAGES` |
| `dist_index.dfy` | `DistIndex` | `Index` |
| `url_pattern.dfy` | `UrlPattern` | `REGEX_URL` |
| `link_classifier.dfy` | `LinkClassifier` | `single_package_index` |
| `download_proxy.dfy` | `DownloadProxy` | `download_package` and its `download_data` generator |

Some details of `server.py` that the model keeps:

- A snapshot that parses is returned exactly as read. It is not re-sorted, so
  the list is sorted only when it was scraped.
- An internal link's local URL is the remote URL with every occurrence of
  `PYPI_ROOT` deleted, wherever it occurs.
- The placeholder is named after the file's base name, not after its whole
  relative path. Two packages with the same file name in different directories
  share one placeholder (`DownloadProxy.InFlightRedirectsSameName`).
- The `except` around the response only guards building the generator. It
  does not guard iterating it.

## Model

| member | source | states |
|---|---|---|
| `Text.IsSubstringIff` | simplepypicache/server.py:141 | `version in remote_url` holds exactly when the version occurs at some position of the URL |
| `Text.RemoveAll` | simplepypicache/server.py:120 | `replace(PYPI_ROOT, "")` never lengthens the URL; it removes at least one copy when one occurs; it changes nothing when there is no occurrence or the pattern is empty |
| `Text.RemoveAllFirst` | simplepypicache/server.py:120 | the deletion scans left to right: the text before the first occurrence is kept, that occurrence is deleted, and the scan resumes right after it; with the no-occurrence case this fixes the result for every URL |
| `Text.RemoveAllFrom` | simplepypicache/server.py:120 | the same cut for the deletion run on a suffix `s[k..]`: with an occurrence at `i >= k` and none from `k` up to `i`, the result is `s[k..i]` followed by the deletion run on the text after that occurrence |
| `Text.RemoveAllLeading` | simplepypicache/server.py:120 | a URL that starts with `PYPI_ROOT` and has no other occurrence loses exactly that prefix |
| `Text.Basename` | simplepypicache/server.py:168 | the file name is the longest suffix of the path without a `/` |
| `Text.BasenameAfterSlash` | simplepypicache/server.py:168 | the file name of `dir/name` is `name` for every directory, so packages in different directories can share a file name |
| `Text.Join` | simplepypicache/server.py:169 | `os.path.join` gives the second part alone when it is absolute; otherwise the first part, then one `/` only when the first part is non-empty and does not already end in `/`, then the second part |
| `Text.BasenameOfJoin` | simplepypicache/server.py:206-207 | joining a directory in front of a path keeps the path's file name |
| `Files.Move` | simplepypicache/server.py:216 | after `shutil.move` the target holds the source's bytes, the source is gone, and no other path changes |
| `Ordering.BelowIff` | simplepypicache/server.py:109-110 | strings compare as in Python: `a` comes first when it is a prefix of `b`, or when at the first position where they differ it has the smaller code point |
| `Ordering.Sort` | simplepypicache/server.py:87-88 | `data.sort()` yields an ascending permutation of the scraped names |
| `Ordering.AscendingUnique` | simplepypicache/server.py:67-68 | two ascending permutations of the same names are equal, so the sorted list is fully determined |
| `Ordering.SortDescending` | simplepypicache/server.py:109-110 | `sort(reverse=True)` yields a descending permutation of the project's versions |
| `Settings.PypiRoot` | simplepypicache/server.py:47 | `PYPI_ROOT` is never longer than the index URL, and equals it when the URL holds no `/simple` |
| `Settings.PypiRootDropsSimple` | simplepypicache/server.py:47 | an index URL `host/simple<tail>` with `/simple` nowhere else gives the root `host<tail>`, so `https://pypi.python.org/simple/` gives `https://pypi.python.org/` |
| `Settings.StaticPackages` | simplepypicache/server.py:44-45 | `STATIC_PACKAGES` is `SCPYPI_STATIC` when set, and otherwise a directory named `static` directly under the cache root |
| `DistIndex.Dists` | simplepypicache/server.py:62-71 | within `MAX_AGE` of `last_hit` the cached names come back without a scrape; after that they are replaced by an ascending permutation of the scrape, or the scraper's error surfaces; every served access stamps `last_hit` |
| `DistIndex.IdleWindowNeverRefreshes` | simplepypicache/server.py:62-71 | a run of accesses, each within a day of the previous one, never refreshes, however long ago the names were fetched |
| `DistIndex.LoadCachedDists` | simplepypicache/server.py:73-94 | a parsable snapshot is returned verbatim with the disk untouched; otherwise a corrupt snapshot is deleted, the names are the sorted scrape, and they are written back when a snapshot path is configured; a failed scrape leaves only the deletion |
| `DistIndex.Create` | simplepypicache/server.py:57-60 | a new index holds the loaded names, stamped with the current time |
| `DistIndex.RestartReadsSnapshot` | simplepypicache/server.py:78-94 | with a codec that reads back what it writes, a restart on the disk left by a scraping start gets the same names without scraping or writing |
| `DistIndex.CorruptSnapshotReplaced` | simplepypicache/server.py:81-92 | an unparsable snapshot is replaced by the encoding of the freshly sorted names |
| `UrlPattern.Match` | simplepypicache/server.py:49 | a match yields groups that satisfy the pattern; no match means no groups could |
| `UrlPattern.MatchUnique` | simplepypicache/server.py:49 | the pattern admits at most one pair of groups per URL, so `.groups()` is determined by the URL |
| `UrlPattern.MatchIff` | simplepypicache/server.py:124 | `REGEX_URL.match(url).groups()` is a pair exactly when the pattern describes that pair |
| `LinkClassifier.FirstVersionIn` | simplepypicache/server.py:140-144 | the download scan stops at the first version, in list order, that occurs in the URL; no hit means no version occurs |
| `LinkClassifier.HomepageLoop` | simplepypicache/server.py:133-136 | a homepage link gets one row per version, labelled `<v> home_page`, in version order |
| `LinkClassifier.DownloadLoop` | simplepypicache/server.py:139-144 | a download link gets a single row for the first matching version, labelled `<v> download`, or no row |
| `LinkClassifier.ClassifyOne` | simplepypicache/server.py:119-144 | one link adds its rows to its own list; only an internal link the pattern rejects fails |
| `LinkClassifier.FirstMalformedIsFirst` | simplepypicache/server.py:119-124 | the loop stops at the first internal link, in scrape order, whose URL `REGEX_URL` rejects; it runs to the end exactly when every internal link matches |
| `LinkClassifier.FirstMalformedStays` | simplepypicache/server.py:119-124 | links after the first rejected one do not change which link the loop fails on |
| `LinkClassifier.BucketsAreCategories` | simplepypicache/server.py:113-144 | link by link, the loop's four lists are exactly the internal, unspecified, homepage and download rows |
| `LinkClassifier.ScanLinks` | simplepypicache/server.py:113-144 | the loop either stops at the first rejected internal link, reporting its URL, or fills the four lists link by link |
| `LinkClassifier.ClassifyLinks` | simplepypicache/server.py:118-150 | the page data is internal ++ unspecified ++ homepage ++ download rows; it fails exactly when some internal link does not match, reporting the first such link |
| `LinkClassifier.SinglePackageIndex` | simplepypicache/server.py:101-152 | a missing page gives the "Not Found" text; a page with an internal link the pattern rejects fails on the first such link; otherwise the versions are a descending permutation of the project's and the data is the classification of the page's links |
| `LinkClassifier.InternalsReversed` | simplepypicache/server.py:123-125 | internal rows come out in the reverse of scrape order |
| `LinkClassifier.BasicsShape` | simplepypicache/server.py:127-130 | unspecified rows number versions × unspecified links; every row is `("", u, u)` for the raw remote URL `u` of some unspecified link, not its local URL; and the row `("", u, u)` occurs exactly versions × (the number of unspecified links with URL `u`) times, so each link contributes its own copy per version |
| `LinkClassifier.HomepagesCount` | simplepypicache/server.py:133-136 | homepage rows number versions × homepage links |
| `LinkClassifier.DownloadsCount` | simplepypicache/server.py:139-144 | there are at most as many download rows as download links |
| `LinkClassifier.OtherKindsIgnored` | simplepypicache/server.py:119-144 | a link of any other type leaves the page data unchanged |
| `LinkClassifier.VersionsOrderedAsStrings` | simplepypicache/server.py:109-110 | versions are ordered as strings: `2.0` sorts above `12.0` |
| `LinkClassifier.DownloadLabelFollowsStringOrder` | simplepypicache/server.py:139-144 | so a download URL for 12.0 is labelled `2.0 download` |
| `DownloadProxy.Placeholder` | simplepypicache/server.py:168-169 | the placeholder's path starts with `CACHED_PACKAGES`, and its file name is the package's file name plus `.download`, whatever directory the package is in |
| `DownloadProxy.PlaceholderInCache` | simplepypicache/server.py:169 | the placeholder lies directly in `CACHED_PACKAGES`, joined with a single `/` unless the root is empty or already ends in one |
| `DownloadProxy.PlaceholderKeyIsBasename` | simplepypicache/server.py:168-169 | two packages share a placeholder exactly when they share a file name |
| `DownloadProxy.RemoteUrl` | simplepypicache/server.py:173 | the upstream URL is `PYPI_ROOT`, then `/packages/`, then the requested path unchanged, so it names the same file |
| `DownloadProxy.StaticPath` | simplepypicache/server.py:206-207 | a relative package path starts with `STATIC_PACKAGES` and ends with the requested path, and the file name is kept |
| `DownloadProxy.StaticPathInStatic` | simplepypicache/server.py:206-207 | a relative package path is placed directly in `STATIC_PACKAGES`, joined with a single `/` unless that directory is empty or already ends in one; an absolute path is used as it is |
| `DownloadProxy.DownloadPackage` | simplepypicache/server.py:168-193 | redirect to `PYPI_ROOT/packages/<package>` exactly when the placeholder exists or upstream fails; otherwise a stream of the upstream pieces with its content type, with nothing written yet |
| `DownloadProxy.Tee` | simplepypicache/server.py:200-203 | every piece is yielded in order and appended to the placeholder; nothing else changes |
| `DownloadProxy.RunGenerator` | simplepypicache/server.py:197-218 | a full run yields every piece, leaves their concatenation at the static path, removes the placeholder, and changes no other path |
| `DownloadProxy.Fetch` | simplepypicache/server.py:155-224 | a redirect writes nothing; a stream delivers every upstream piece and caches their concatenation at `STATIC_PACKAGES/<package>`, with no placeholder left and no other path changed |
| `DownloadProxy.InFlightRedirectsSameName` | simplepypicache/server.py:168-176 | at any point of a running download of `dir1/name`, a request for `dir2/name` is redirected and writes nothing; the placeholder holds the pieces written so far, taking each write as reaching the disk at once |
| `DownloadProxy.CachedFileFetchedAgain` | simplepypicache/server.py:168-216 | a file already at its static path, with no placeholder, is streamed from upstream again and the cached copy is overwritten |
| `DownloadProxy.SecondRequestBeforeStartAlsoStreams` | simplepypicache/server.py:174-200 | before the client starts reading, the placeholder does not exist, so a second request for the same file also streams |

## Left out

- Flask routing, `render_template`, `redirect` and `Response` objects, and `Index.__call__` (server.py:96-98). These are framework plumbing. A page is the data handed to the template, and a response is `Redirect(url)` or `Stream(...)`.
- Flask's own serving of the static folder. The app (util.py:38-44) serves that folder under `/` plus the folder's base name, which is not `/packages/` unless the base name of `SCPYPI_STATIC` is `packages`. A request for `/packages/<package>` always reaches `download_package`, even when the file is already cached, and downloads it again (`DownloadProxy.CachedFileFetchedAgain`).
- Path normalisation. Paths are compared as strings, with no resolution of `..`, `//` or symbolic links. The `<path:package>` route accepts `..`, so two different strings can name one file on disk. For such a pair, "no other path changes" in `DownloadProxy.Fetch` and `DownloadProxy.RunGenerator` does not carry over to the disk.
- Environment and argument bootstrap (server.py:42-48, scripts.py, util.py, app.py). `Settings.Environment` holds the values instead.
- `urllib2` and distlib's `SimpleScrapingLocator`. They are replaced by parameters: the scraped names, the page's links, the project's version keys, and the upstream result.
- The pieces of an upstream response. These are whatever iterating the `urllib2` response yields (its lines). The model takes them as given.
- Exceptions other than `HTTPError` from `urlopen`, and `IOError` when reading or writing the snapshot. Both propagate in the source and are not modelled.
- JSON. `json.loads(...strip())` and `json.dumps` are a pair of function parameters. The model assumes a parsed snapshot is a list of names; the source would return any JSON value verbatim.
- Directories. `os.makedirs` and `os.path.isdir` have no counterpart in a map from paths to bytes. A move onto an existing directory is not modelled.
- The `except` branch at server.py:227-233. In a single sequential request the placeholder does not exist there, and building the generator cannot fail, so the branch is unreachable in the model.
- Exceptions raised while the generator runs, and clients that disconnect mid-stream. The source defines no handling for either. The model covers only complete runs, plus the intermediate states of a complete run.
- Concurrency. Requests are sequential. The check-then-create window is stated as `DownloadProxy.SecondRequestBeforeStartAlsoStreams`, not as an interleaving.
- Write buffering. The placeholder is opened with Python's buffered `open(..., "wb")`, so another reader may see only a prefix of the pieces written. The model takes each write as reaching the disk at once (`DownloadProxy.InFlight`).
- Logging.
- The `AttributeError` raised when `.groups()` is called on a failed `REGEX_URL.match`, and the error page Flask renders for it. The model returns `LinkFailure(url)` for the first such link instead.

=== FILE: dist_index.dfy ===
/**
 * `Index`, the time-bounded cache of all distribution names behind
 * `/simple/`. The clock is an integer counting microseconds; the remote
 * scraper and the JSON codec of the snapshot file are parameters.
 */
module DistIndex {
  import opened Options
  import opened Files
  import Ordering

  /** `Index.MAX_AGE`: one day, in microseconds. */
  const MaxAge: int := 86_400_000_000

  /** The cached names (`_dists`) and the time of the last access (`last_hit`). */
  datatype Index = Index(dists: seq<string>, lastHit: int)

  /** The outcome of one call to `SCRAPER.get_distribution_names()`. */
  datatype Scrape = Names(names: seq<string>) | ScrapeFailed

  /**
   * The outcome of one access: the names returned and the index afterwards,
   * or the scraper's exception, which leaves the index as it was.
   */
  datatype Access = Served(names: seq<string>, next: Index) | Failed

  /**
   * The `dists` property. The clock is read twice: `checkedAt` for the
   * staleness test and `hitAt` for the new `last_hit`. The scraper is
   * consulted only when the index has been idle for more than a day.
   */
  function Dists(idx: Index, checkedAt: int, hitAt: int, scraper: Scrape): (r: Access)
    ensures checkedAt - idx.lastHit <= MaxAge ==> r == Served(idx.dists, Index(idx.dists, hitAt))
    ensures checkedAt - idx.lastHit > MaxAge ==> (r.Served? <==> scraper.Names?)
    ensures checkedAt - idx.lastHit > MaxAge && r.Served? ==>
      Ordering.Ascending(r.names) && multiset(r.names) == multiset(scraper.names)
    ensures r.Served? ==> r.next == Index(r.names, hitAt)
  {
    if checkedAt - idx.lastHit > MaxAge then
      match scraper
      case Names(ns) =>
        var sorted := Ordering.Sort(ns);
        Served(sorted, Index(sorted, hitAt))
      case ScrapeFailed => Failed
    else
      Served(idx.dists, Index(idx.dists, hitAt))
  }

  /** One access to the index: both clock readings and what the scraper would answer. */
  datatype Visit = Visit(checkedAt: int, hitAt: int, scraper: Scrape)

  /** The answers to a run of accesses, each starting from the index the previous one left. */
  function Replay(idx: Index, visits: seq<Visit>): (answers: seq<Access>)
    ensures |answers| == |visits|
    decreases |visits|
  {
    if |visits| == 0 then []
    else
      var a := Dists(idx, visits[0].checkedAt, visits[0].hitAt, visits[0].scraper);
      [a] + Replay(if a.Served? then a.next else idx, visits[1..])
  }

  /** No access comes more than `MaxAge` after the previous one stamped `last_hit`. */
  ghost predicate NeverIdle(lastHit: int, visits: seq<Visit>)
  {
    && (|visits| > 0 ==> visits[0].checkedAt - lastHit <= MaxAge)
    && forall i :: 0 < i < |visits| ==> visits[i].checkedAt - visits[i - 1].hitAt <= MaxAge
  }

  /**
   * The window slides: however long ago the names were fetched, a run of
   * accesses each within a day of the previous one never refreshes them and
   * never calls the scraper.
   */
  lemma {:induction false} IdleWindowNeverRefreshes(idx: Index, visits: seq<Visit>)
    requires NeverIdle(idx.lastHit, visits)
    ensures forall i :: 0 <= i < |visits| ==>
      Replay(idx, visits)[i] == Served(idx.dists, Index(idx.dists, visits[i].hitAt))
    decreases |visits|
  {
    if |visits| > 0 {
      var next := Index(idx.dists, visits[0].hitAt);
      var rest := visits[1..];
      assert NeverIdle(next.lastHit, rest) by {
        forall i | 0 < i < |rest|
          ensures rest[i].checkedAt - rest[i - 1].hitAt <= MaxAge
        {
          assert rest[i] == visits[i + 1] && rest[i - 1] == visits[i];
        }
        if |rest| > 0 {
          assert rest[0] == visits[1];
        }
      }
      IdleWindowNeverRefreshes(next, rest);
      var first := Dists(idx, visits[0].checkedAt, visits[0].hitAt, visits[0].scraper);
      assert first == Served(idx.dists, next);
      assert Replay(idx, visits) == [first] + Replay(next, rest);
      forall i | 0 < i < |visits|
        ensures Replay(idx, visits)[i] == Served(idx.dists, Index(idx.dists, visits[i].hitAt))
      {
        assert Replay(idx, visits)[i] == Replay(next, rest)[i - 1];
        assert rest[i - 1] == visits[i];
      }
    }
  }

  /** The names held in the snapshot file, when it is configured, exists and parses. */
  function SnapshotNames(snapshot: Option<string>, fs: FileSystem, decode: seq<byte> -> Option<seq<string>>): Option<seq<string>>
  {
    if snapshot.Some? && snapshot.value in fs then decode(fs[snapshot.value]) else None
  }

  /** The outcome of `load_cached_dists`, with the disk as it is left. */
  datatype Loaded = Loaded(names: seq<string>, fs: FileSystem) | LoadFailed(fs: FileSystem)

  /**
   * `load_cached_dists`. `snapshot` is `CACHED_DISTS_FILES`; `decode` stands
   * for `json.loads(stream.read().strip())` (`None` for a `ValueError`) and
   * `encode` for `json.dumps`.
   */
  function LoadCachedDists(snapshot: Option<string>, fs: FileSystem, scraper: Scrape,
                           decode: seq<byte> -> Option<seq<string>>,
                           encode: seq<string> -> seq<byte>): (r: Loaded)
    // a parsable snapshot is returned verbatim, without scraping, sorting or writing
    ensures SnapshotNames(snapshot, fs, decode).Some? ==>
      r == Loaded(SnapshotNames(snapshot, fs, decode).value, fs)
    ensures SnapshotNames(snapshot, fs, decode).None? ==> (r.Loaded? <==> scraper.Names?)
    // otherwise the names are the scraper's, sorted, and are written back when a path is configured
    ensures SnapshotNames(snapshot, fs, decode).None? && r.Loaded? ==>
      && Ordering.Ascending(r.names)
      && multiset(r.names) == multiset(scraper.names)
      && (snapshot.Some? ==> r.fs == fs[snapshot.value := encode(r.names)])
      && (snapshot.None? ==> r.fs == fs)
    // a failing scrape leaves the disk as it was, except that an unparsable snapshot is gone
    ensures r.LoadFailed? ==>
      && (snapshot.Some? && snapshot.value in fs ==> r.fs == fs - {snapshot.value})
      && (snapshot.None? || snapshot.value !in fs ==> r.fs == fs)
  {
    var parsed := SnapshotNames(snapshot, fs, decode);
    if parsed.Some? then Loaded(parsed.value, fs)
    else
      var cleared := if snapshot.Some? && snapshot.value in fs then fs - {snapshot.value} else fs;
      match scraper
      case ScrapeFailed => LoadFailed(cleared)
      case Names(ns) =>
        var data := Ordering.Sort(ns);
        Loaded(data, if snapshot.Some? then cleared[snapshot.value := encode(data)] else cleared)
  }

  /** The outcome of `Index()`, with the disk as it is left. */
  datatype Started = Started(index: Index, fs: FileSystem) | StartFailed(fs: FileSystem)

  /** `Index.__init__`: load the names, then stamp `last_hit` with the clock reading `now`. */
  function Create(snapshot: Option<string>, fs: FileSystem, scraper: Scrape,
                  decode: seq<byte> -> Option<seq<string>>,
                  encode: seq<string> -> seq<byte>, now: int): (r: Started)
    ensures r.Started? ==> r.index.lastHit == now
    ensures SnapshotNames(snapshot, fs, decode).Some? ==>
      r == Started(Index(SnapshotNames(snapshot, fs, decode).value, now), fs)
    ensures SnapshotNames(snapshot, fs, decode).None? ==> (r.Started? <==> scraper.Names?)
    ensures SnapshotNames(snapshot, fs, decode).None? && r.Started? ==>
      Ordering.Ascending(r.index.dists) && multiset(r.index.dists) == multiset(scraper.names)
  {
    match LoadCachedDists(snapshot, fs, scraper, decode, encode)
    case Loaded(names, fs') => Started(Index(names, now), fs')
    case LoadFailed(fs') => StartFailed(fs')
  }

  /**
   * The snapshot round trip: when the codec reads back what it wrote, a
   * process that scraped and saved the names hands the next process, started
   * on the same disk, the same names without a scrape and without a write.
   */
  lemma RestartReadsSnapshot(path: string, fs: FileSystem, first: Scrape, second: Scrape,
                             decode: seq<byte> -> Option<seq<string>>,
                             encode: seq<string> -> seq<byte>, t0: int, t1: int)
    requires forall ns :: decode(encode(ns)) == Some(ns)
    requires Create(Some(path), fs, first, decode, encode, t0).Started?
    ensures var s0 := Create(Some(path), fs, first, decode, encode, t0);
      Create(Some(path), s0.fs, second, decode, encode, t1) == Started(Index(s0.index.dists, t1), s0.fs)
  {
    var s0 := Create(Some(path), fs, first, decode, encode, t0);
    if SnapshotNames(Some(path), fs, decode).None? {
      assert decode(encode(s0.index.dists)) == Some(s0.index.dists);
    }
  }

  /**
   * A corrupt snapshot is replaced: after a successful scrape the file holds
   * the encoding of the freshly sorted names.
   */
  lemma CorruptSnapshotReplaced(path: string, fs: FileSystem, ns: seq<string>,
                                decode: seq<byte> -> Option<seq<string>>,
                                encode: seq<string> -> seq<byte>)
    requires path in fs && decode(fs[path]).None?
    ensures var r := LoadCachedDists(Some(path), fs, Names(ns), decode, encode);
      && r.Loaded?
      && r.names == Ordering.Sort(ns)
      && path in r.fs && r.fs[path] == encode(Ordering.Sort(ns))
  {
    var r := LoadCachedDists(Some(path), fs, Names(ns), decode, encode);
    Ordering.AscendingUnique(r.names, Ordering.Sort(ns));
  }
}

=== FILE: download_proxy.dfy ===
/**
 * `download_package`: redirect to the upstream file, or stream it to the
 * client while teeing it into a placeholder file that is finally moved into
 * the static directory. The upstream response is a parameter; the disk is a
 * `FileSystem` map.
 */
module DownloadProxy {
  import opened Options
  import opened Files
  import Seqs
  import Text
  import opened Settings

  /** `httplib.OK`. */
  const Ok: int := 200

  /**
   * What `urllib2.urlopen(pypi_url)` gives: an `HTTPError`, or an open
   * response with its status, the pieces that iterating it yields, and its
   * `content-type` header.
   */
  datatype Upstream = HttpError | Opened(code: int, chunks: seq<seq<byte>>, contentType: Option<string>)

  /** `placeholder`: named after the file name only, not the whole relative path. */
  function Placeholder(env: Environment, package: string): (r: string)
    ensures CachedPackages(env) <= r
    ensures Text.Basename(r) == Text.Basename(package) + ".download"
  {
    var base, suffix := Text.Basename(package), ".download";
    assert '/' !in base + suffix by {
      DownloadSuffix();
      Text.NoSlashAppended(base, suffix);
    }
    Text.JoinName(CachedPackages(env), base + suffix);
    Text.Join(CachedPackages(env), base + suffix)
  }

  /** The placeholder suffix holds no `/`, so it cannot move the file to another directory. */
  lemma DownloadSuffix()
    ensures '/' !in ".download"
  {
  }

  /** The placeholder sits directly in `CACHED_PACKAGES`, not in some other directory. */
  lemma PlaceholderInCache(env: Environment, package: string)
    ensures Text.DirectlyUnder(Placeholder(env, package), CachedPackages(env), Text.Basename(package) + ".download")
  {
    var base, suffix := Text.Basename(package), ".download";
    assert '/' !in base + suffix by {
      DownloadSuffix();
      Text.NoSlashAppended(base, suffix);
    }
    Text.JoinName(CachedPackages(env), base + suffix);
  }

  /**
   * Two packages share a placeholder exactly when they share a file name,
   * whatever directories they sit in.
   */
  lemma PlaceholderKeyIsBasename(env: Environment, p1: string, p2: string)
    ensures Placeholder(env, p1) == Placeholder(env, p2) <==> Text.Basename(p1) == Text.Basename(p2)
  {
    var b1, b2 := Text.Basename(p1), Text.Basename(p2);
    if Placeholder(env, p1) == Placeholder(env, p2) {
      assert b1 + ".download" == b2 + ".download";
      assert b1 == (b1 + ".download")[..|b1|];
    }
  }

  /** `pypi_url`, the upstream location of the file. */
  function RemoteUrl(env: Environment, package: string): (r: string)
    // the requested path follows `PYPI_ROOT/packages/` unchanged, so it names the same file
    ensures PypiRoot(env) <= r
    ensures |r| == |PypiRoot(env)| + |"/packages/"| + |package|
    ensures r[|PypiRoot(env)|..|PypiRoot(env)| + |"/packages/"|] == "/packages/"
    ensures r[|PypiRoot(env)| + |"/packages/"|..] == package
    ensures Text.Basename(r) == Text.Basename(package)
  {
    var root, dir := PypiRoot(env), PypiRoot(env) + "/packages/";
    Text.BasenameUnderDir(dir, package);
    Text.PartsOfConcat(root, "/packages/", package);
    dir + package
  }

  /** `full_static_path`, where a finished download ends up. */
  function StaticPath(env: Environment, package: string): (r: string)
    // the requested path below the static directory, keeping its file name
    ensures (|package| == 0 || package[0] != '/') ==> StaticPackages(env) <= r
    ensures |package| <= |r| && r[|r| - |package|..] == package
    ensures Text.Basename(r) == Text.Basename(package)
  {
    Text.BasenameOfJoin(StaticPackages(env), package);
    Text.Join(StaticPackages(env), package)
  }

  /**
   * A relative package path is placed directly in `STATIC_PACKAGES`, with a
   * single separator; an absolute one is used as it is.
   */
  lemma StaticPathInStatic(env: Environment, package: string)
    ensures (|package| == 0 || package[0] != '/') ==> Text.DirectlyUnder(StaticPath(env, package), StaticPackages(env), package)
    ensures |package| > 0 && package[0] == '/' ==> StaticPath(env, package) == package
  {
  }

  /** A `download_data()` generator that has been created but not yet started. */
  datatype Pending = Pending(placeholder: string, target: string, chunks: seq<seq<byte>>)

  /** `redirect(pypi_url)`, or a streamed `Response` backed by the generator. */
  datatype Response = Redirect(url: string) | Stream(body: Pending, contentType: Option<string>)

  /**
   * `download_package(package)` up to the returned response. Nothing is
   * written yet: the generator has not started, so the placeholder does not
   * exist when the response is returned.
   */
  function DownloadPackage(env: Environment, fs: FileSystem, package: string, upstream: Upstream): (r: Response)
    ensures r.Redirect? <==> (Placeholder(env, package) in fs || upstream.HttpError? || upstream.code != Ok)
    ensures r.Redirect? ==> r.url == RemoteUrl(env, package)
    ensures r.Stream? ==>
      && r.body == Pending(Placeholder(env, package), StaticPath(env, package), upstream.chunks)
      && r.contentType == upstream.contentType
  {
    var placeholder := Placeholder(env, package);
    var pypiUrl := RemoteUrl(env, package);
    if placeholder in fs then Redirect(pypiUrl)
    else match upstream
      case HttpError => Redirect(pypiUrl)
      case Opened(code, chunks, contentType) =>
        if code != Ok then Redirect(pypiUrl)
        else Stream(Pending(placeholder, StaticPath(env, package), chunks), contentType)
  }

  /**
   * The `for data in download` loop over `chunks`: each piece is appended
   * to the open placeholder file and yielded, in order.
   */
  function Tee(fs: FileSystem, placeholder: string, chunks: seq<seq<byte>>): (r: (seq<seq<byte>>, FileSystem))
    requires placeholder in fs
    ensures r.0 == chunks
    ensures placeholder in r.1 && r.1[placeholder] == fs[placeholder] + Seqs.Flatten(chunks)
    ensures SameExcept(fs, r.1, {placeholder})
    decreases |chunks|
  {
    if |chunks| == 0 then ([], fs)
    else
      var last := chunks[|chunks| - 1];
      var (yielded, written) := Tee(fs, placeholder, chunks[..|chunks| - 1]);
      (yielded + [last], written[placeholder := written[placeholder] + last])
  }

  /** The disk while the generator runs, after `k` pieces have been written. */
  function InFlight(fs: FileSystem, body: Pending, k: nat): FileSystem
    requires k <= |body.chunks|
  {
    Tee(fs[body.placeholder := []], body.placeholder, body.chunks[..k]).1
  }

  /** What one complete iteration of the generator yields and leaves on disk. */
  datatype Run = Run(yielded: seq<seq<byte>>, fs: FileSystem)

  /**
   * One complete run of `download_data()`: open (and truncate) the
   * placeholder, tee every piece, then move the placeholder to the static path.
   */
  function RunGenerator(fs: FileSystem, body: Pending): (r: Run)
    ensures r.yielded == body.chunks
    ensures body.target in r.fs && r.fs[body.target] == Seqs.Flatten(body.chunks)
    ensures body.placeholder != body.target ==> body.placeholder !in r.fs
    ensures SameExcept(fs, r.fs, {body.placeholder, body.target})
  {
    var started := fs[body.placeholder := []];
    var (yielded, written) := Tee(started, body.placeholder, body.chunks);
    Run(yielded, Move(written, body.placeholder, body.target))
  }

  /** A request handled to the end: the response, what the client received, and the disk after. */
  datatype Served = Served(response: Response, received: seq<seq<byte>>, fs: FileSystem)

  /** `download_package(package)` followed by the client reading the whole response. */
  function Fetch(env: Environment, fs: FileSystem, package: string, upstream: Upstream): (r: Served)
    // a download in progress, or a failing upstream: redirect, and the disk is untouched
    ensures r.response.Redirect? ==> r.received == [] && r.fs == fs
    ensures r.response.Redirect? <==> (Placeholder(env, package) in fs || upstream.HttpError? || upstream.code != Ok)
    // otherwise the client gets every upstream piece in order and the file is cached
    ensures r.response.Stream? ==>
      && r.received == upstream.chunks
      && StaticPath(env, package) in r.fs
      && r.fs[StaticPath(env, package)] == Seqs.Flatten(upstream.chunks)
      && (Placeholder(env, package) != StaticPath(env, package) ==> Placeholder(env, package) !in r.fs)
      && SameExcept(fs, r.fs, {StaticPath(env, package)})
  {
    var response := DownloadPackage(env, fs, package, upstream);
    match response
    case Redirect(_) => Served(response, [], fs)
    case Stream(body, _) =>
      var run := RunGenerator(fs, body);
      Served(response, run.yielded, run.fs)
  }

  /**
   * While a download of `dir1/name` runs, however far it has got, a request
   * for `dir2/name`, the same file name in any directory, is redirected and
   * writes nothing. The placeholder holds the pieces written so far, taking
   * each write as reaching the disk at once.
   */
  lemma InFlightRedirectsSameName(env: Environment, fs: FileSystem, dir1: string, dir2: string, name: string,
                                  chunks: seq<seq<byte>>, up2: Upstream, k: nat)
    requires k <= |chunks|
    requires '/' !in name
    ensures var p1, p2 := dir1 + "/" + name, dir2 + "/" + name;
      var mid := InFlight(fs, Pending(Placeholder(env, p1), StaticPath(env, p1), chunks), k);
      && Placeholder(env, p2) in mid
      && mid[Placeholder(env, p2)] == Seqs.Flatten(chunks[..k])
      && Fetch(env, mid, p2, up2) == Served(Redirect(RemoteUrl(env, p2)), [], mid)
  {
    Text.BasenameAfterSlash(dir1, name);
    Text.BasenameAfterSlash(dir2, name);
  }

  /**
   * A file already cached at its static path is not served from there:
   * with no placeholder and a working upstream, the request streams the file
   * from upstream again and overwrites the cached copy.
   */
  lemma CachedFileFetchedAgain(env: Environment, fs: FileSystem, package: string, upstream: Upstream)
    ensures StaticPath(env, package) in fs && Placeholder(env, package) !in fs && upstream.Opened? && upstream.code == Ok ==>
      var r := Fetch(env, fs, package, upstream);
      && r.response.Stream?
      && r.received == upstream.chunks
      && r.fs[StaticPath(env, package)] == Seqs.Flatten(upstream.chunks)
  {
  }

  /**
   * The placeholder appears only once the client starts reading, so a second
   * request for the same file made before that also streams from upstream:
   * the existence check does not exclude it.
   */
  lemma SecondRequestBeforeStartAlsoStreams(env: Environment, fs: FileSystem, package: string,
                                            up1: Upstream, up2: Upstream)
    ensures DownloadPackage(env, fs, package, up1).Stream? && up2.Opened? && up2.code == Ok ==>
      DownloadPackage(env, fs, package, up2).Stream?
  {
  }
}

=== FILE: files.dfy ===
/**
 * The local disk as the server sees it: a map from a file's path to its
 * bytes. Directories are not represented; creating one (`os.makedirs`) has
 * no effect on this map.
 */
module Files {

  newtype byte = b: int | 0 <= b < 256

  type FileSystem = map<string, seq<byte>>

  /** `a` and `b` hold the same files, with the same contents, outside `paths`. */
  ghost predicate SameExcept(a: FileSystem, b: FileSystem, paths: set<string>)
  {
    forall k :: k !in paths ==> (k in a <==> k in b) && (k in a ==> a[k] == b[k])
  }

  /**
   * `shutil.move(src, dst)` for a regular file onto a path that is not a
   * directory: `dst` receives the contents and `src` is gone. Moving a file
   * onto itself leaves it in place.
   */
  function Move(fs: FileSystem, src: string, dst: string): (r: FileSystem)
    requires src in fs
    ensures dst in r && r[dst] == fs[src]
    ensures src != dst ==> src !in r
    ensures SameExcept(fs, r, {src, dst})
  {
    if src == dst then fs else (fs - {src})[dst := fs[src]]
  }
}

=== FILE: link_classifier.dfy ===
/**
 * `single_package_index`: the page for one package, built from the links
 * scraped off the remote page and the project's versions. Every raw link is
 * a `(url, type)` pair; every output row a `(type, url, label)` triple. The
 * template is not rendered: the page is the data handed to it.
 */
module LinkClassifier {
  import opened Options
  import Seqs
  import Text
  import Ordering
  import UrlPattern
  import Settings

  /** One `(remote_url, url_type)` pair of `remote_page.links`. */
  datatype RawLink = RawLink(url: string, kind: string)

  /** One `(url_type, url, label)` row handed to the template. */
  datatype Entry = Entry(kind: string, url: string, title: string)

  /** An internal link whose URL `REGEX_URL` does not match: the source fails on it. */
  predicate Malformed(link: RawLink)
  {
    link.kind == "internal" && UrlPattern.Match(link.url).None?
  }

  /** The position of the first malformed link among the first `n`, if there is one. */
  function FirstMalformed(links: seq<RawLink>, n: nat): (r: Option<nat>)
    requires n <= |links|
    ensures r.Some? ==> r.value < n
  {
    if n == 0 then None
    else match FirstMalformed(links, n - 1)
      case Some(k) => Some(k)
      case None => if Malformed(links[n - 1]) then Some(n - 1) else None
  }

  /** `FirstMalformed` finds the earliest malformed link, and finds none only when there is none. */
  lemma {:induction false} FirstMalformedIsFirst(links: seq<RawLink>, n: nat)
    requires n <= |links|
    ensures var r := FirstMalformed(links, n);
      && (r.Some? ==> r.value < n && Malformed(links[r.value]))
      && (r.Some? ==> forall j :: 0 <= j < r.value ==> !Malformed(links[j]))
      && (r.None? ==> forall j :: 0 <= j < n ==> !Malformed(links[j]))
  {
    if n > 0 {
      FirstMalformedIsFirst(links, n - 1);
      if FirstMalformed(links, n - 1).None? && !Malformed(links[n - 1]) {
        assert forall j :: 0 <= j < n - 1 ==> !Malformed(links[j]);
      }
    }
  }

  /** Links after the first malformed one do not move it. */
  lemma {:induction false} FirstMalformedStays(links: seq<RawLink>, n: nat)
    requires n <= |links| && FirstMalformed(links, n).Some?
    ensures FirstMalformed(links, |links|) == FirstMalformed(links, n)
    decreases |links| - n
  {
    if n < |links| {
      FirstMalformedStays(links, n + 1);
    }
  }

  // ---------------------------------------------------------------------
  // The rows each kind of link contributes, category by category.
  // ---------------------------------------------------------------------

  /** The row of an internal link: local URL and the file name of group 1. */
  function InternalRow(root: string, link: RawLink): seq<Entry>
  {
    if link.kind != "internal" then []
    else match UrlPattern.Match(link.url)
      case Some(groups) => [Entry(link.kind, Text.RemoveAll(link.url, root), groups.0)]
      case None => []
  }

  /** The internal rows in scrape order. */
  function InternalsInScrapeOrder(root: string, links: seq<RawLink>): seq<Entry>
  {
    if |links| == 0 then []
    else InternalsInScrapeOrder(root, links[..|links| - 1]) + InternalRow(root, links[|links| - 1])
  }

  /** `internal_urls`: each new internal row goes in front of the earlier ones. */
  function Internals(root: string, links: seq<RawLink>): seq<Entry>
  {
    if |links| == 0 then []
    else InternalRow(root, links[|links| - 1]) + Internals(root, links[..|links| - 1])
  }

  /** `n` copies of `e` (Python's `[e] * n`). */
  function Repeat(e: Entry, n: nat): (r: seq<Entry>)
    ensures |r| == n && forall i :: 0 <= i < n ==> r[i] == e
  {
    seq(n, _ => e)
  }

  /** `basic_links`: an unspecified link is repeated once per version. */
  function Basics(versions: seq<string>, links: seq<RawLink>): seq<Entry>
  {
    if |links| == 0 then []
    else
      var link := links[|links| - 1];
      Basics(versions, links[..|links| - 1])
        + (if link.kind == "" then Repeat(Entry(link.kind, link.url, link.url), |versions|) else [])
  }

  /** The homepage rows of one link: one per version, in the order of `versions`. */
  function HomepageRows(versions: seq<string>, url: string): (r: seq<Entry>)
    ensures |r| == |versions|
    ensures forall i :: 0 <= i < |versions| ==> r[i] == Entry("homepage", url, versions[i] + " home_page")
  {
    seq(|versions|, i requires 0 <= i < |versions| => Entry("homepage", url, versions[i] + " home_page"))
  }

  /** `homepages`. */
  function Homepages(versions: seq<string>, links: seq<RawLink>): seq<Entry>
  {
    if |links| == 0 then []
    else
      var link := links[|links| - 1];
      Homepages(versions, links[..|links| - 1])
        + (if link.kind == "homepage" then HomepageRows(versions, link.url) else [])
  }

  /** The position of the first version that occurs in `url`, if any. */
  function FirstVersionIn(versions: seq<string>, url: string): (r: Option<nat>)
    ensures r.Some? ==> r.value < |versions| && Text.IsSubstring(versions[r.value], url)
    ensures r.Some? ==> forall j :: 0 <= j < r.value ==> !Text.IsSubstring(versions[j], url)
    ensures r.None? ==> forall j :: 0 <= j < |versions| ==> !Text.IsSubstring(versions[j], url)
    decreases |versions|
  {
    if |versions| == 0 then None
    else if Text.IsSubstring(versions[0], url) then Some(0)
    else match FirstVersionIn(versions[1..], url)
      case Some(k) => Some(k + 1)
      case None => None
  }

  /** The download row of one link: at most one, for the first version in its URL. */
  function DownloadRow(root: string, versions: seq<string>, link: RawLink): seq<Entry>
  {
    match FirstVersionIn(versions, link.url)
    case Some(k) => [Entry(link.kind, Text.RemoveAll(link.url, root), versions[k] + " download")]
    case None => []
  }

  /** `downloads`. */
  function Downloads(root: string, versions: seq<string>, links: seq<RawLink>): seq<Entry>
  {
    if |links| == 0 then []
    else
      var link := links[|links| - 1];
      Downloads(root, versions, links[..|links| - 1])
        + (if link.kind == "download" then DownloadRow(root, versions, link) else [])
  }

  /** The page data: all internal rows, then unspecified, homepage and download rows. */
  function Classified(root: string, versions: seq<string>, links: seq<RawLink>): seq<Entry>
  {
    Internals(root, links) + Basics(versions, links) + Homepages(versions, links) + Downloads(root, versions, links)
  }

  // ---------------------------------------------------------------------
  // The loop of `single_package_index`.
  // ---------------------------------------------------------------------

  /** The outcome of the classification loop. */
  datatype Classification = Rows(entries: seq<Entry>) | BadInternalLink(url: string)

  /** The four lists the loop fills: `internal_urls`, `basic_links`, `homepages`, `downloads`. */
  datatype Buckets = Buckets(internals: seq<Entry>, basics: seq<Entry>, homepages: seq<Entry>, downloads: seq<Entry>)

  /** What one turn of the loop does to the buckets for a well-formed `link`. */
  function Step(root: string, versions: seq<string>, b: Buckets, link: RawLink): Buckets
  {
    Buckets(
      InternalRow(root, link) + b.internals,
      b.basics + (if link.kind == "" then Repeat(Entry(link.kind, link.url, link.url), |versions|) else []),
      b.homepages + (if link.kind == "homepage" then HomepageRows(versions, link.url) else []),
      b.downloads + (if link.kind == "download" then DownloadRow(root, versions, link) else []))
  }

  /** The buckets after the loop has gone through the first `n` links. */
  function BucketsUpTo(root: string, versions: seq<string>, links: seq<RawLink>, n: nat): Buckets
    requires n <= |links|
  {
    if n == 0 then Buckets([], [], [], [])
    else Step(root, versions, BucketsUpTo(root, versions, links, n - 1), links[n - 1])
  }

  /** Bucket by bucket, the loop fills exactly the four categories. */
  lemma {:induction false} BucketsAreCategories(root: string, versions: seq<string>, links: seq<RawLink>, n: nat)
    requires n <= |links|
    ensures var prefix := links[..n];
      BucketsUpTo(root, versions, links, n)
        == Buckets(Internals(root, prefix), Basics(versions, prefix), Homepages(versions, prefix), Downloads(root, versions, prefix))
  {
    if n > 0 {
      BucketsAreCategories(root, versions, links, n - 1);
      assert links[..n][..n - 1] == links[..n - 1];
      assert links[..n][n - 1] == links[n - 1];
    }
  }

  /** Where the loop ends: all links done, with the buckets filled, or stopped at a bad internal link. */
  datatype Scan = Filled(buckets: Buckets) | Stopped(url: string)

  /**
   * The `for remote_url, url_type in remote_page.links` loop. An internal
   * link that `REGEX_URL` does not match stops the loop: the source calls
   * `.groups()` on `None` there.
   */
  method ScanLinks(root: string, versions: seq<string>, links: seq<RawLink>) returns (r: Scan)
    ensures r.Stopped? <==> FirstMalformed(links, |links|).Some?
    ensures r.Stopped? ==>
      FirstMalformed(links, |links|).Some? && r.url == links[FirstMalformed(links, |links|).value].url
    ensures r.Filled? ==> r.buckets == BucketsUpTo(root, versions, links, |links|)
  {
    var b := Buckets([], [], [], []);
    var i := 0;
    while i < |links|
      invariant 0 <= i <= |links|
      invariant FirstMalformed(links, i).None?
      invariant b == BucketsUpTo(root, versions, links, i)
    {
      var next := ClassifyAt(root, versions, links, i, b);
      if next.None? {
        FirstMalformedStays(links, i + 1);
        return Stopped(links[i].url);
      }
      b := next.value;
      i := i + 1;
    }
    return Filled(b);
  }

  /** Turn `i` of the loop, stated in terms of the first `i` and `i + 1` links. */
  method ClassifyAt(root: string, versions: seq<string>, links: seq<RawLink>, i: nat, b: Buckets)
    returns (r: Option<Buckets>)
    requires i < |links| && b == BucketsUpTo(root, versions, links, i)
    ensures r.None? <==> Malformed(links[i])
    ensures r.Some? ==> r.value == BucketsUpTo(root, versions, links, i + 1)
  {
    r := ClassifyOne(root, versions, b, links[i]);
  }

  /** The loop of `single_package_index` and the page data it leaves behind. */
  method ClassifyLinks(root: string, versions: seq<string>, links: seq<RawLink>) returns (r: Classification)
    ensures r.BadInternalLink? <==> FirstMalformed(links, |links|).Some?
    ensures r.BadInternalLink? ==>
      FirstMalformed(links, |links|).Some? && r.url == links[FirstMalformed(links, |links|).value].url
    ensures r.Rows? ==> r.entries == Classified(root, versions, links)
  {
    var scan := ScanLinks(root, versions, links);
    match scan
    case Stopped(url) =>
      return BadInternalLink(url);
    case Filled(b) =>
      ClassifiedIsBuckets(root, versions, links, b);
      return Rows(b.internals + b.basics + b.homepages + b.downloads);
  }

  /** The page data is the four buckets joined in order. */
  lemma ClassifiedIsBuckets(root: string, versions: seq<string>, links: seq<RawLink>, b: Buckets)
    requires b == BucketsUpTo(root, versions, links, |links|)
    ensures Classified(root, versions, links) == b.internals + b.basics + b.homepages + b.downloads
  {
    BucketsAreCategories(root, versions, links, |links|);
    assert links[..|links|] == links;
  }

  /** One turn of the loop: the rows of `link` go into their list. */
  method ClassifyOne(root: string, versions: seq<string>, b: Buckets, link: RawLink) returns (r: Option<Buckets>)
    ensures r.None? <==> Malformed(link)
    ensures r.Some? ==> r.value == Step(root, versions, b, link)
  {
    var localUrl := Text.RemoveAll(link.url, root);
    if link.kind == "internal" {
      var groups := UrlPattern.Match(link.url);
      if groups.None? {
        return None;
      }
      return Some(b.(internals := [Entry(link.kind, localUrl, groups.value.0)] + b.internals));
    } else if link.kind == "" {
      return Some(b.(basics := b.basics + Repeat(Entry(link.kind, link.url, link.url), |versions|)));
    } else if link.kind == "homepage" {
      var rows := HomepageLoop(versions, link.url);
      return Some(b.(homepages := b.homepages + rows));
    } else if link.kind == "download" {
      var rows := DownloadLoop(localUrl, versions, link.url);
      return Some(b.(downloads := b.downloads + rows));
    }
    return Some(b);
  }

  /** The inner `for version in project_versions` loop of a homepage link. */
  method HomepageLoop(versions: seq<string>, url: string) returns (rows: seq<Entry>)
    ensures rows == HomepageRows(versions, url)
  {
    rows := [];
    var k := 0;
    while k < |versions|
      invariant 0 <= k <= |versions|
      invariant rows == HomepageRows(versions[..k], url)
    {
      rows := rows + [Entry("homepage", url, versions[k] + " home_page")];
      k := k + 1;
    }
    assert versions[..k] == versions;
  }

  /**
   * The inner loop of a download link: the first version that occurs in the
   * remote URL labels the one row, and `break` ends the scan.
   */
  method DownloadLoop(localUrl: string, versions: seq<string>, url: string) returns (rows: seq<Entry>)
    ensures FirstVersionIn(versions, url).None? ==> rows == []
    ensures FirstVersionIn(versions, url).Some? ==>
      rows == [Entry("download", localUrl, versions[FirstVersionIn(versions, url).value] + " download")]
  {
    rows := [];
    var k := 0;
    while k < |versions|
      invariant 0 <= k <= |versions|
      invariant forall j :: 0 <= j < k ==> !Text.IsSubstring(versions[j], url)
    {
      if Text.IsSubstring(versions[k], url) {
        FirstVersionAt(versions, url, k);
        rows := [Entry("download", localUrl, versions[k] + " download")];
        return;
      }
      k := k + 1;
    }
  }

  /** The version found by the download loop's `break` is the one `FirstVersionIn` names. */
  lemma FirstVersionAt(versions: seq<string>, url: string, k: nat)
    requires k < |versions| && Text.IsSubstring(versions[k], url)
    requires forall j :: 0 <= j < k ==> !Text.IsSubstring(versions[j], url)
    ensures FirstVersionIn(versions, url) == Some(k)
  {
    var r := FirstVersionIn(versions, url);
    assert r.Some?;
    assert !(r.value < k) && !(k < r.value);
  }


  /** The result of `single_package_index`. */
  datatype PackagePage =
    | NotFound(message: string)
    | Rendered(data: seq<Entry>, package: string, versions: seq<string>)
    | LinkFailure(url: string)

  /**
   * `single_package_index(package)`. `page` is what `SCRAPER.get_page`
   * returns (its links), and `projectVersions` the keys of
   * `SCRAPER.get_project(package)` in whatever order they come.
   */
  method SinglePackageIndex(env: Settings.Environment, package: string, page: Option<seq<RawLink>>, projectVersions: seq<string>)
    returns (r: PackagePage)
    ensures page.None? <==> r.NotFound?
    ensures r.NotFound? ==> r.message == "Not Found (" + package + " does not have any releases)"
    ensures page.Some? ==> (r.LinkFailure? <==> exists i :: 0 <= i < |page.value| && Malformed(page.value[i]))
    ensures r.LinkFailure? ==>
      FirstMalformed(page.value, |page.value|).Some? && r.url == page.value[FirstMalformed(page.value, |page.value|).value].url
    ensures r.Rendered? ==>
      && r.package == package
      && Ordering.Descending(r.versions)
      && multiset(r.versions) == multiset(projectVersions)
      && r.data == Classified(Settings.PypiRoot(env), r.versions, page.value)
  {
    if page.None? {
      return NotFound("Not Found (" + package + " does not have any releases)");
    }
    FirstMalformedIsFirst(page.value, |page.value|);
    var versions := Ordering.SortDescending(projectVersions);
    var c := ClassifyLinks(Settings.PypiRoot(env), versions, page.value);
    match c
    case BadInternalLink(url) =>
      return LinkFailure(url);
    case Rows(entries) =>
      return Rendered(entries, package, versions);
  }

  // ---------------------------------------------------------------------
  // What the page holds.
  // ---------------------------------------------------------------------

  /** Internal rows come out in the reverse of scrape order. */
  lemma {:induction false} InternalsReversed(root: string, links: seq<RawLink>)
    ensures Internals(root, links) == Seqs.Reverse(InternalsInScrapeOrder(root, links))
    decreases |links|
  {
    if |links| > 0 {
      var prefix := links[..|links| - 1];
      var row := InternalRow(root, links[|links| - 1]);
      InternalsReversed(root, prefix);
      Seqs.ReverseAppend(InternalsInScrapeOrder(root, prefix), row);
      assert Seqs.Reverse(row) == row;
    }
  }

  /** The number of links of the given kind. */
  function CountKind(links: seq<RawLink>, kind: string): nat
  {
    if |links| == 0 then 0
    else CountKind(links[..|links| - 1], kind) + (if links[|links| - 1].kind == kind then 1 else 0)
  }

  /**
   * Unspecified links: exactly one row per version for each of them, every
   * row of kind `""` carrying the raw URL as both URL and label.
   */
  lemma {:induction false} BasicsShape(versions: seq<string>, links: seq<RawLink>)
    ensures |Basics(versions, links)| == |versions| * CountKind(links, "")
    ensures forall e :: e in Basics(versions, links) ==> e.kind == "" && e.url == e.title
    ensures forall e :: e in Basics(versions, links) ==>
      exists l :: l in links && l.kind == "" && e == Entry("", l.url, l.url)
    ensures forall u :: multiset(Basics(versions, links))[Entry("", u, u)] == |versions| * CountUnspecified(links, u)
  {
    BasicsCount(versions, links);
    BasicsFromLinks(versions, links);
    BasicsPerLink(versions, links);
  }

  /** `|versions|` rows for each unspecified link. */
  lemma {:induction false} BasicsCount(versions: seq<string>, links: seq<RawLink>)
    ensures |Basics(versions, links)| == |versions| * CountKind(links, "")
    decreases |links|
  {
    if |links| > 0 {
      BasicsCount(versions, links[..|links| - 1]);
      MulSucc(|versions|, CountKind(links[..|links| - 1], ""));
    }
  }

  /** The number of unspecified links whose URL is `u`. */
  function CountUnspecified(links: seq<RawLink>, u: string): nat
  {
    if |links| == 0 then 0
    else CountUnspecified(links[..|links| - 1], u) + (if links[|links| - 1] == RawLink(u, "") then 1 else 0)
  }

  /** Each unspecified link with URL `u` adds `|versions|` copies of the row `("", u, u)`. */
  lemma {:induction false} BasicsPerLink(versions: seq<string>, links: seq<RawLink>)
    ensures forall u :: multiset(Basics(versions, links))[Entry("", u, u)] == |versions| * CountUnspecified(links, u)
    decreases |links|
  {
    if |links| > 0 {
      BasicsPerLink(versions, links[..|links| - 1]);
      forall u
        ensures multiset(Basics(versions, links))[Entry("", u, u)] == |versions| * CountUnspecified(links, u)
      {
        BasicsPerLinkStep(versions, links, u);
      }
    }
  }

  /** The step of `BasicsPerLink` for one URL: the last link adds its copies, or none. */
  lemma BasicsPerLinkStep(versions: seq<string>, links: seq<RawLink>, u: string)
    requires |links| > 0
    requires multiset(Basics(versions, links[..|links| - 1]))[Entry("", u, u)]
      == |versions| * CountUnspecified(links[..|links| - 1], u)
    ensures multiset(Basics(versions, links))[Entry("", u, u)] == |versions| * CountUnspecified(links, u)
  {
    var prefix, link := links[..|links| - 1], links[|links| - 1];
    var x, row := Entry("", u, u), Entry(link.kind, link.url, link.url);
    var added := if link.kind == "" then Repeat(row, |versions|) else [];
    var hit := link == RawLink(u, "");
    var c := CountUnspecified(prefix, u);
    var before, after, more := multiset(Basics(versions, prefix))[x], multiset(Basics(versions, links))[x], multiset(added)[x];
    assert after == before + more by {
      assert Basics(versions, links) == Basics(versions, prefix) + added;
    }
    assert more == if hit then |versions| else 0 by {
      RepeatCount(row, |versions|, x);
      assert row == x <==> hit;
    }
    assert CountUnspecified(links, u) == c + if hit then 1 else 0;
    MulSucc(|versions|, c);
  }

  /** One more unspecified link adds one more block of `a` rows. */
  lemma MulSucc(a: nat, c: nat)
    ensures a * (c + 1) == a * c + a
  {
  }

  /** `n` copies of `e` hold `x` `n` times when `x` is `e`, and never otherwise. */
  lemma {:induction false} RepeatCount(e: Entry, n: nat, x: Entry)
    ensures multiset(Repeat(e, n))[x] == if x == e then n else 0
    decreases n
  {
    if n > 0 {
      RepeatCount(e, n - 1, x);
      assert Repeat(e, n) == Repeat(e, n - 1) + [e];
    }
  }

  /** Every unspecified row comes from an unspecified link's raw URL. */
  lemma {:induction false} BasicsFromLinks(versions: seq<string>, links: seq<RawLink>)
    ensures forall e :: e in Basics(versions, links) ==>
      exists l :: l in links && l.kind == "" && e == Entry("", l.url, l.url)
    decreases |links|
  {
    if |links| > 0 {
      var prefix, link := links[..|links| - 1], links[|links| - 1];
      BasicsFromLinks(versions, prefix);
      forall e | e in Basics(versions, links)
        ensures exists l :: l in links && l.kind == "" && e == Entry("", l.url, l.url)
      {
        if e in Basics(versions, prefix) {
          var l :| l in prefix && l.kind == "" && e == Entry("", l.url, l.url);
          assert l in links;
        } else {
          assert link in links;
        }
      }
    }
  }

  /** Homepage links: one row per version each. */
  lemma {:induction false} HomepagesCount(versions: seq<string>, links: seq<RawLink>)
    ensures |Homepages(versions, links)| == |versions| * CountKind(links, "homepage")
    decreases |links|
  {
    if |links| > 0 {
      HomepagesCount(versions, links[..|links| - 1]);
    }
  }

  /** Download links: at most one row each. */
  lemma {:induction false} DownloadsCount(root: string, versions: seq<string>, links: seq<RawLink>)
    ensures |Downloads(root, versions, links)| <= CountKind(links, "download")
    decreases |links|
  {
    if |links| > 0 {
      DownloadsCount(root, versions, links[..|links| - 1]);
    }
  }

  /** A link of any other kind adds nothing to the page. */
  lemma OtherKindsIgnored(root: string, versions: seq<string>, links: seq<RawLink>, link: RawLink)
    requires link.kind !in {"internal", "", "homepage", "download"}
    ensures Classified(root, versions, links + [link]) == Classified(root, versions, links)
  {
    var next := links + [link];
    assert next[..|next| - 1] == links && next[|next| - 1] == link;
    assert InternalRow(root, link) == [];
    assert Internals(root, next) == Internals(root, links);
    assert Basics(versions, next) == Basics(versions, links);
    assert Homepages(versions, next) == Homepages(versions, links);
    assert Downloads(root, versions, next) == Downloads(root, versions, links);
  }

  /** Versions are ordered as strings: `2.0` sorts above `12.0`. */
  lemma VersionsOrderedAsStrings()
    ensures Ordering.SortDescending(["12.0", "2.0"]) == ["2.0", "12.0"]
  {
    var up: seq<string> := ["12.0", "2.0"];
    assert Ordering.Below(up[0], up[1]);
    assert Ordering.Ascending(up);
    Ordering.AscendingUnique(Ordering.Sort(up), up);
    assert Seqs.Reverse(up) == ["2.0", "12.0"];
  }

  /**
   * The first version in descending string order that occurs in a download
   * URL labels it, so with versions `2.0` and `12.0` a download URL for 12.0
   * is labelled with 2.0.
   */
  lemma DownloadLabelFollowsStringOrder(root: string, versions: seq<string>, url: string)
    requires versions == ["2.0", "12.0"] && url == "pkg-12.0.tar.gz"
    ensures Downloads(root, versions, [RawLink(url, "download")])
      == [Entry("download", Text.RemoveAll(url, root), "2.0 download")]
  {
    var link := RawLink(url, "download");
    FirstVersionLabels(versions, url);
    SingleDownload(root, versions, link);
    assert versions[0] + " download" == "2.0 download";
  }

  /** `2.0` occurs in `pkg-12.0.tar.gz`, so it is the first version found there. */
  lemma FirstVersionLabels(versions: seq<string>, url: string)
    requires versions == ["2.0", "12.0"] && url == "pkg-12.0.tar.gz"
    ensures FirstVersionIn(versions, url) == Some(0)
  {
    assert Text.IsSubstring(versions[0], url) by {
      assert Text.OccursAt(url, "2.0", 5);
      Text.IsSubstringIff("2.0", url);
    }
  }

  /** The download rows of a single download link are that link's row. */
  lemma SingleDownload(root: string, versions: seq<string>, link: RawLink)
    requires link.kind == "download"
    ensures Downloads(root, versions, [link]) == DownloadRow(root, versions, link)
  {
    assert [link][..0] == [];
  }
}

=== FILE: options.dfy ===
/** An optional value: Python's `None` or a present value. */
module Options {

  datatype Option<+T> = None | Some(value: T)
}

=== FILE: ordering.dfy ===
/**
 * Python's ordering of strings (lexicographic by code point, a proper prefix
 * first) and the result of `list.sort()` / `list.sort(reverse=True)` on a list
 * of strings. Equal strings are indistinguishable, so stability plays no role
 * and the sorted list is unique.
 */
module Ordering {
  import Seqs

  /** `a <= b` in Python's string ordering. */
  predicate Below(a: string, b: string)
    decreases |a|
  {
    |a| == 0 || (|b| > 0 && (a[0] < b[0] || (a[0] == b[0] && Below(a[1..], b[1..]))))
  }

  /** At `i`, `a` and `b` first differ, and `a` holds the smaller character. */
  ghost predicate SmallerAt(a: string, b: string, i: int)
  {
    0 <= i < |a| && i < |b| && a[..i] == b[..i] && a[i] < b[i]
  }

  /**
   * `Below` is Python's comparison of strings: `a` is a prefix of `b`, or at
   * the first position where they differ `a` has the smaller code point.
   */
  lemma {:induction false} BelowIff(a: string, b: string)
    ensures Below(a, b) <==> a <= b || exists i :: SmallerAt(a, b, i)
    decreases |a|
  {
    if |a| == 0 {
      assert a <= b;
    } else if |b| == 0 {
      assert forall i :: !SmallerAt(a, b, i);
    } else if a[0] < b[0] {
      assert SmallerAt(a, b, 0);
    } else if a[0] > b[0] {
      assert forall i :: !SmallerAt(a, b, i);
    } else {
      BelowIff(a[1..], b[1..]);
      assert a == [a[0]] + a[1..] && b == [b[0]] + b[1..];
      assert a <= b <==> a[1..] <= b[1..];
      forall i | SmallerAt(a, b, i)
        ensures SmallerAt(a[1..], b[1..], i - 1)
      {
        assert a[1..][..i - 1] == a[..i][1..] && b[1..][..i - 1] == b[..i][1..];
      }
      forall i | SmallerAt(a[1..], b[1..], i)
        ensures SmallerAt(a, b, i + 1)
      {
        assert a[..i + 1] == [a[0]] + a[1..][..i] && b[..i + 1] == [b[0]] + b[1..][..i];
      }
    }
  }

  lemma {:induction false} BelowReflexive(a: string)
    ensures Below(a, a)
    decreases |a|
  {
    if |a| > 0 {
      BelowReflexive(a[1..]);
    }
  }

  lemma {:induction false} BelowAntisymmetric(a: string, b: string)
    requires Below(a, b) && Below(b, a)
    ensures a == b
    decreases |a|
  {
    if |a| > 0 {
      BelowAntisymmetric(a[1..], b[1..]);
      assert a == [a[0]] + a[1..];
      assert b == [b[0]] + b[1..];
    }
  }

  lemma {:induction false} BelowTransitive(a: string, b: string, c: string)
    requires Below(a, b) && Below(b, c)
    ensures Below(a, c)
    decreases |a|
  {
    if |a| > 0 && a[0] == b[0] && b[0] == c[0] {
      BelowTransitive(a[1..], b[1..], c[1..]);
    }
  }

  lemma {:induction false} BelowTotal(a: string, b: string)
    ensures Below(a, b) || Below(b, a)
    decreases |a|
  {
    if |a| > 0 && |b| > 0 && a[0] == b[0] {
      BelowTotal(a[1..], b[1..]);
    }
  }

  /** Ascending order, as left by `list.sort()`. */
  ghost predicate Ascending(s: seq<string>)
  {
    forall i, j :: 0 <= i < j < |s| ==> Below(s[i], s[j])
  }

  /** Descending order, as left by `list.sort(reverse=True)`. */
  ghost predicate Descending(s: seq<string>)
  {
    forall i, j :: 0 <= i < j < |s| ==> Below(s[j], s[i])
  }

  /** Places `x` into an ascending list. */
  function Insert(x: string, s: seq<string>): (r: seq<string>)
    requires Ascending(s)
    ensures Ascending(r)
    ensures multiset(r) == multiset(s) + multiset{x}
    decreases |s|
  {
    if |s| == 0 then [x]
    else if Below(x, s[0]) then
      InsertFront(x, s);
      [x] + s
    else
      var tail := Insert(x, s[1..]);
      BelowTotal(x, s[0]);
      InsertBehind(s[0], x, s[1..], tail);
      assert s == [s[0]] + s[1..];
      [s[0]] + tail
  }

  lemma InsertFront(x: string, s: seq<string>)
    requires Ascending(s) && |s| > 0 && Below(x, s[0])
    ensures Ascending([x] + s)
  {
    forall j | 0 < j < |s| + 1
      ensures Below(x, ([x] + s)[j])
    {
      if j > 1 {
        BelowTransitive(x, s[0], s[j - 1]);
      }
    }
  }

  lemma InsertBehind(h: string, x: string, s: seq<string>, tail: seq<string>)
    requires Ascending([h] + s) && Ascending(tail) && Below(h, x)
    requires multiset(tail) == multiset(s) + multiset{x}
    ensures Ascending([h] + tail)
  {
    forall j | 0 <= j < |tail|
      ensures Below(h, tail[j])
    {
      assert tail[j] in multiset(tail);
      if tail[j] != x {
        assert tail[j] in multiset(s);
        var k :| 0 <= k < |s| && s[k] == tail[j];
        assert ([h] + s)[0] == h && ([h] + s)[k + 1] == s[k];
        assert Below(([h] + s)[0], ([h] + s)[k + 1]);
      }
    }
  }

  /** Python's `sorted(s)` on strings: insertion sort. */
  function Sort(s: seq<string>): (r: seq<string>)
    ensures Ascending(r)
    ensures multiset(r) == multiset(s)
    decreases |s|
  {
    if |s| == 0 then []
    else
      assert s == [s[0]] + s[1..];
      Insert(s[0], Sort(s[1..]))
  }

  /**
   * An ascending list is determined by its elements: any ascending
   * permutation of `s` is `Sort(s)`.
   */
  lemma {:induction false} AscendingUnique(a: seq<string>, b: seq<string>)
    requires Ascending(a) && Ascending(b)
    requires multiset(a) == multiset(b)
    ensures a == b
    decreases |a|
  {
    if |a| > 0 {
      assert |b| == |multiset(b)| == |a|;
      HeadIsLeast(a, b[0]);
      HeadIsLeast(b, a[0]);
      BelowAntisymmetric(a[0], b[0]);
      SplitHead(a);
      SplitHead(b);
      assert multiset(a[1..]) == multiset(a) - multiset{a[0]};
      assert multiset(b[1..]) == multiset(b) - multiset{b[0]};
      AscendingUnique(a[1..], b[1..]);
    }
  }

  /** The head of an ascending list is below every element of it. */
  lemma HeadIsLeast(a: seq<string>, x: string)
    requires Ascending(a) && x in multiset(a)
    ensures Below(a[0], x)
  {
    var i :| 0 <= i < |a| && a[i] == x;
    if i == 0 {
      BelowReflexive(x);
    }
  }

  lemma SplitHead(a: seq<string>)
    requires Ascending(a) && |a| > 0
    ensures Ascending(a[1..])
    ensures multiset(a) == multiset{a[0]} + multiset(a[1..])
  {
    assert a == [a[0]] + a[1..];
  }

  /** Python's `s.sort(reverse=True)` on strings. */
  function SortDescending(s: seq<string>): (r: seq<string>)
    ensures Descending(r)
    ensures multiset(r) == multiset(s)
  {
    var up := Sort(s);
    var r := Seqs.Reverse(up);
    assert multiset(r) == multiset(up) by {
      ReverseMultiset(up);
    }
    r
  }

  lemma {:induction false} ReverseMultiset(s: seq<string>)
    ensures multiset(Seqs.Reverse(s)) == multiset(s)
    decreases |s|
  {
    if |s| > 0 {
      ReverseMultiset(s[..|s| - 1]);
      assert s == s[..|s| - 1] + [s[|s| - 1]];
    }
  }
}

=== FILE: seqs.dfy ===
/** Small sequence helpers shared by the rest of the model. */
module Seqs {

  /** The elements of `s` in the opposite order. */
  function Reverse<T>(s: seq<T>): (r: seq<T>)
    ensures |r| == |s|
    ensures forall i :: 0 <= i < |s| ==> r[i] == s[|s| - 1 - i]
  {
    if |s| == 0 then [] else [s[|s| - 1]] + Reverse(s[..|s| - 1])
  }

  /** The concatenation of all chunks, in order (Python's `b"".join(chunks)`). */
  function Flatten<T>(chunks: seq<seq<T>>): seq<T>
  {
    if |chunks| == 0 then [] else Flatten(chunks[..|chunks| - 1]) + chunks[|chunks| - 1]
  }

  /** Reversing a concatenation reverses the order of the parts. */
  lemma {:induction false} ReverseAppend<T>(a: seq<T>, b: seq<T>)
    ensures Reverse(a + b) == Reverse(b) + Reverse(a)
  {
    var l, r := Reverse(a + b), Reverse(b) + Reverse(a);
    assert |l| == |r|;
    forall i | 0 <= i < |l|
      ensures l[i] == r[i]
    {
      if i < |b| {
        assert l[i] == (a + b)[|a| + |b| - 1 - i] == b[|b| - 1 - i];
      } else {
        assert l[i] == (a + b)[|a| + |b| - 1 - i] == a[|a| - 1 - (i - |b|)];
      }
    }
  }
}

=== FILE: settings.dfy ===
/**
 * The server's configuration, read once from the environment when the
 * module is imported; here a plain value handed to each operation.
 */
module Settings {
  import opened Options
  import Text

  /**
   * `SCPYPI_INDEX`, `SCPYPI_ROOT`, the optional `SCPYPI_STATIC` and the
   * optional `SCPYPI_DISTS_FILE`.
   */
  datatype Environment = Environment(index: string, root: string, staticDir: Option<string>, distsFile: Option<string>)

  /** `PYPI_ROOT`: the index URL with every `/simple` removed. */
  function PypiRoot(env: Environment): (r: string)
    ensures |r| <= |env.index|
    ensures !Text.IsSubstring("/simple", env.index) ==> r == env.index
  {
    Text.RemoveAll(env.index, "/simple")
  }

  /**
   * An index URL `host/simple<tail>`, with `/simple` nowhere else, gives the
   * root `host<tail>`: `https://pypi.python.org/simple/` gives
   * `https://pypi.python.org/`.
   */
  lemma PypiRootDropsSimple(env: Environment, host: string, tail: string)
    requires env.index == host + "/simple" + tail
    requires !Text.IsSubstring("/simple", host + "/simpl")
    requires !Text.IsSubstring("/simple", tail)
    ensures PypiRoot(env) == host + tail
  {
    var pat := "/simple";
    var s := env.index;
    var i := |host|;
    assert s[i..i + |pat|] == pat;
    forall j | 0 <= j < i
      ensures !Text.OccursAt(s, pat, j)
    {
      if Text.OccursAt(s, pat, j) {
        assert s[j..j + |pat|] == (host + "/simpl")[j..j + |pat|];
        Text.IsSubstringIff(pat, host + "/simpl");
        assert Text.OccursAt(host + "/simpl", pat, j);
        assert false;
      }
    }
    Text.RemoveAllFirst(s, pat, i);
    assert s[..i] == host && s[i + |pat|..] == tail;
  }

  /** `CACHED_PACKAGES`, where placeholders are written. */
  function CachedPackages(env: Environment): string
  {
    env.root
  }

  /** `STATIC_PACKAGES`: `SCPYPI_STATIC`, or `static` under the cache root. */
  function StaticPackages(env: Environment): (r: string)
    ensures env.staticDir.Some? ==> r == env.staticDir.value
    // by default, the directory `static` directly under the cache root
    ensures env.staticDir.None? ==> env.root <= r && |r| <= |env.root| + 7 && Text.Basename(r) == "static"
  {
    match env.staticDir
    case Some(dir) => dir
    case None =>
      Text.JoinName(env.root, "static");
      Text.Join(env.root, "static")
  }
}

=== FILE: text.dfy ===
/**
 * The handful of Python string and path operations the server relies on:
 * `sub in s`, `s.replace(old, "")`, `os.path.basename` and `os.path.join`
 * (POSIX flavour), each as a pure function over `string`.
 */
module Text {

  /** `sub` occurs in `s` starting at index `i`. */
  ghost predicate OccursAt(s: string, sub: string, i: int)
  {
    0 <= i && i + |sub| <= |s| && s[i..i + |sub|] == sub
  }

  /** Python's `sub in s`: `sub` is a contiguous piece of `s`. */
  predicate IsSubstring(sub: string, s: string)
    decreases |s|
  {
    sub <= s || (|s| > 0 && IsSubstring(sub, s[1..]))
  }

  /** `IsSubstring` agrees with the positional definition, both ways. */
  lemma {:induction false} IsSubstringIff(sub: string, s: string)
    ensures IsSubstring(sub, s) <==> exists i :: OccursAt(s, sub, i)
    decreases |s|
  {
    if sub <= s {
      assert OccursAt(s, sub, 0);
    } else if |s| == 0 {
      assert forall i :: !OccursAt(s, sub, i);
    } else {
      IsSubstringIff(sub, s[1..]);
      if IsSubstring(sub, s[1..]) {
        var i :| OccursAt(s[1..], sub, i);
        OccursLater(s, sub, i);
      } else {
        forall i | OccursAt(s, sub, i)
          ensures 0 < i && OccursAt(s[1..], sub, i - 1)
        {
          OccursEarlier(s, sub, i);
        }
      }
    }
  }

  /** An occurrence in `s[1..]` is one in `s`, a place further on. */
  lemma OccursLater(s: string, sub: string, i: int)
    requires |s| > 0 && OccursAt(s[1..], sub, i)
    ensures OccursAt(s, sub, i + 1)
  {
    assert s[i + 1..i + 1 + |sub|] == s[1..][i..i + |sub|];
  }

  /** An occurrence in `s` that is not at the start is one in `s[1..]`, a place earlier. */
  lemma OccursEarlier(s: string, sub: string, i: int)
    requires |s| > 0 && !(sub <= s) && OccursAt(s, sub, i)
    ensures 0 < i && OccursAt(s[1..], sub, i - 1)
  {
    assert s[1..][i - 1..i - 1 + |sub|] == s[i..i + |sub|];
  }

  /**
   * Python's `s.replace(pat, "")`: scanning left to right, every
   * non-overlapping occurrence of `pat` is deleted. An empty `pat` leaves
   * `s` as it is.
   */
  function RemoveAll(s: string, pat: string): (r: string)
    ensures |r| <= |s|
    ensures |pat| > 0 && IsSubstring(pat, s) ==> |r| <= |s| - |pat|
    ensures !IsSubstring(pat, s) ==> r == s
    ensures |pat| == 0 ==> r == s
    decreases |s|
  {
    if |pat| == 0 || |s| == 0 then s
    else if pat <= s then RemoveAll(s[|pat|..], pat)
    else [s[0]] + RemoveAll(s[1..], pat)
  }

  /**
   * The left-to-right scan, cut at the first occurrence: everything before it
   * is kept, the occurrence itself is deleted, and the scan resumes right
   * after it. With the no-occurrence case of `RemoveAll`'s contract this fixes
   * the result for every input.
   */
  lemma RemoveAllFirst(s: string, pat: string, i: nat)
    requires |pat| > 0
    requires OccursAt(s, pat, i)
    requires forall j :: 0 <= j < i ==> !OccursAt(s, pat, j)
    ensures RemoveAll(s, pat) == s[..i] + RemoveAll(s[i + |pat|..], pat)
  {
    RemoveAllFrom(s, pat, i, 0);
    assert s[0..] == s && s[0..i] == s[..i];
  }

  /** `RemoveAllFirst` for the suffix `s[k..]`, by induction from the occurrence back to `k`. */
  lemma {:induction false} RemoveAllFrom(s: string, pat: string, i: nat, k: nat)
    requires |pat| > 0 && k <= i
    requires OccursAt(s, pat, i)
    requires forall j :: k <= j < i ==> !OccursAt(s, pat, j)
    ensures RemoveAll(s[k..], pat) == s[k..i] + RemoveAll(s[i + |pat|..], pat)
    decreases i - k
  {
    var rest := RemoveAll(s[i + |pat|..], pat);
    if k == i {
      DropAt(s, pat, i);
      assert s[k..i] == [];
    } else {
      KeepAt(s, pat, k);
      assert RemoveAll(s[k + 1..], pat) == s[k + 1..i] + rest by {
        RemoveAllFrom(s, pat, i, k + 1);
      }
      assert [s[k]] + s[k + 1..i] == s[k..i];
      Glue(s[k], s[k + 1..i], RemoveAll(s[k..], pat), RemoveAll(s[k + 1..], pat), rest);
    }
  }

  /** At an occurrence in `s`, the scan deletes it and resumes right after it. */
  lemma DropAt(s: string, pat: string, i: nat)
    requires |pat| > 0 && OccursAt(s, pat, i)
    ensures RemoveAll(s[i..], pat) == RemoveAll(s[i + |pat|..], pat)
  {
    assert s[i..][|pat|..] == s[i + |pat|..];
    DropHead(s[i..], pat);
    SameInput(s[i..][|pat|..], s[i + |pat|..], pat);
  }

  /** Where `s` holds no occurrence, the scan keeps one character and moves on. */
  lemma KeepAt(s: string, pat: string, k: nat)
    requires |pat| > 0 && k < |s| && !OccursAt(s, pat, k)
    ensures RemoveAll(s[k..], pat) == [s[k]] + RemoveAll(s[k + 1..], pat)
  {
    assert s[k..][1..] == s[k + 1..];
    assert !OccursAt(s[k..], pat, 0) by {
      if |pat| <= |s[k..]| {
        assert s[k..][0..|pat|] == s[k..k + |pat|];
      }
    }
    KeepHead(s[k..], pat);
    SameInput(s[k..][1..], s[k + 1..], pat);
  }

  /** An occurrence at the front is deleted, and the scan resumes right after it. */
  lemma DropHead(s: string, pat: string)
    requires |pat| > 0 && pat <= s
    ensures RemoveAll(s, pat) == RemoveAll(s[|pat|..], pat)
  {
  }

  /** Equal inputs give equal results; stated so the solver need not find it among many slices. */
  lemma SameInput(a: string, b: string, pat: string)
    requires a == b
    ensures RemoveAll(a, pat) == RemoveAll(b, pat)
  {
  }

  /** Regrouping `[c] + (kept + rest)`, with the results passed as plain values. */
  lemma Glue(c: char, kept: string, whole: string, tail: string, rest: string)
    requires whole == [c] + tail && tail == kept + rest
    ensures whole == ([c] + kept) + rest
  {
  }

  /** Without an occurrence at the front, the first character is kept. */
  lemma KeepHead(s: string, pat: string)
    requires |pat| > 0 && |s| > 0 && !OccursAt(s, pat, 0)
    ensures RemoveAll(s, pat) == [s[0]] + RemoveAll(s[1..], pat)
  {
    assert !(pat <= s);
  }

  /** A string that starts with `pat` and holds no further occurrence loses exactly that prefix. */
  lemma RemoveAllLeading(pat: string, rest: string)
    requires |pat| > 0
    requires !IsSubstring(pat, rest)
    ensures RemoveAll(pat + rest, pat) == rest
  {
    assert pat <= pat + rest;
    assert (pat + rest)[|pat|..] == rest;
  }

  /** Python's `os.path.basename`: everything after the last `/`. */
  function Basename(p: string): (r: string)
    ensures |r| <= |p| && r == p[|p| - |r|..]
    ensures '/' !in r
    ensures |r| < |p| ==> p[|p| - |r| - 1] == '/'
  {
    if |p| == 0 || p[|p| - 1] == '/' then ""
    else Basename(p[..|p| - 1]) + [p[|p| - 1]]
  }

  /** The base name of `dir/name` is `name`, whatever `dir` is. */
  lemma BasenameAfterSlash(dir: string, name: string)
    requires '/' !in name
    ensures Basename(dir + "/" + name) == name
  {
    var p := dir + "/" + name;
    var r := Basename(p);
    assert p[|p| - |name|..] == name && p[|p| - |name| - 1] == '/';
    if |r| > |name| {
      assert false;
    } else if |r| < |name| {
      assert false;
    }
  }

  /** The three parts of `a + b + c` can be read back by position. */
  lemma PartsOfConcat(a: string, b: string, c: string)
    ensures var r := a + b + c;
      && a <= r && |r| == |a| + |b| + |c|
      && r[|a|..|a| + |b|] == b && r[|a| + |b|..] == c
  {
  }

  /** Two names without `/` concatenate to a name without `/`. */
  lemma NoSlashAppended(a: string, b: string)
    requires '/' !in a && '/' !in b
    ensures '/' !in a + b
  {
  }

  /**
   * Joining a name without `/` to a directory: the directory, at most one
   * `/`, then the name, which is the result's base name.
   */
  lemma JoinName(dir: string, name: string)
    requires '/' !in name
    ensures dir <= Join(dir, name) && |Join(dir, name)| <= |dir| + |name| + 1
    ensures Basename(Join(dir, name)) == name
    ensures DirectlyUnder(Join(dir, name), dir, name)
  {
    BasenameOfJoin(dir, name);
    BasenameOfName(name);
    assert |name| == 0 || name[0] != '/' by {
      if |name| > 0 {
        assert name[0] in name;
      }
    }
  }

  /** A name without `/` is its own base name. */
  lemma BasenameOfName(name: string)
    requires '/' !in name
    ensures Basename(name) == name
  {
    var r := Basename(name);
    if |r| < |name| {
      assert false;
    }
  }

  /**
   * Putting a directory (empty, or ending in `/`) in front of a path does not
   * change its base name.
   */
  lemma {:induction false} BasenameUnderDir(dir: string, p: string)
    requires |dir| == 0 || dir[|dir| - 1] == '/'
    ensures Basename(dir + p) == Basename(p)
    decreases |p|
  {
    if |p| > 0 && p[|p| - 1] != '/' {
      assert (dir + p)[..|dir + p| - 1] == dir + p[..|p| - 1];
      BasenameUnderDir(dir, p[..|p| - 1]);
    } else if |p| == 0 {
      assert dir + p == dir;
    }
  }

  /** `os.path.join(a, b)` keeps the base name of `b`, whatever `a` is. */
  lemma BasenameOfJoin(a: string, b: string)
    ensures Basename(Join(a, b)) == Basename(b)
  {
    if |b| > 0 && b[0] == '/' {
    } else if |a| == 0 || a[|a| - 1] == '/' {
      BasenameUnderDir(a, b);
    } else {
      assert a + "/" + b == (a + "/") + b;
      BasenameUnderDir(a + "/", b);
    }
  }

  /**
   * `r` is `name` placed directly in `dir`: one `/` between them, unless
   * `dir` is empty or already ends in `/`.
   */
  ghost predicate DirectlyUnder(r: string, dir: string, name: string)
  {
    && (|dir| > 0 && dir[|dir| - 1] != '/' ==> r == dir + "/" + name)
    && (|dir| == 0 || dir[|dir| - 1] == '/' ==> r == dir + name)
  }

  /** Python's `os.path.join(a, b)` for two POSIX path components. */
  function Join(a: string, b: string): (r: string)
    ensures |b| > 0 && b[0] == '/' ==> r == b
    ensures |b| <= |r| && r[|r| - |b|..] == b
    ensures (|b| == 0 || b[0] != '/') ==> a <= r
    // a single separator is added only after a non-empty part not already ending in '/'
    ensures (|b| == 0 || b[0] != '/') && |a| > 0 && a[|a| - 1] != '/' ==> r == a + "/" + b
    ensures (|b| == 0 || b[0] != '/') && (|a| == 0 || a[|a| - 1] == '/') ==> r == a + b
  {
    if |b| > 0 && b[0] == '/' then b
    else if |a| == 0 || a[|a| - 1] == '/' then a + b
    else a + "/" + b
  }
}

=== FILE: url_pattern.dfy ===
// `REGEX_URL`, the pattern `^.*/(.+)#md5=([a-z0-9]{32})$` applied with
// Python's `re.match`: `.` does not match a newline, `$` matches at the end or
// just before one final newline, and the greedy `.*` makes the `/` that opens
// group 1 the last one that still leaves the group non-empty.
module UrlPattern {
  import opened Options

  /** The digest alphabet `[a-z0-9]`. */
  predicate IsHashChar(c: char)
  {
    'a' <= c <= 'z' || '0' <= c <= '9'
  }

  /** The literal between the file name and the digest. */
  const Md5Marker: string := "#md5="

  /** The part of `s` that `$` anchors: `s` without one final newline. */
  function Anchored(s: string): (t: string)
    ensures t <= s && |s| - 1 <= |t|
  {
    if |s| > 0 && s[|s| - 1] == '\n' then s[..|s| - 1] else s
  }

  /**
   * The pattern matches `s` with group 1 `name` and group 2 `md5`: the
   * anchored text ends with `/name#md5=md5` and has no newline, the digest
   * is 32 characters of `[a-z0-9]`, and `name` holds no `/` except possibly
   * in its last position (otherwise the greedy `.*` would have taken more).
   */
  ghost predicate Matches(s: string, name: string, md5: string)
  {
    var t := Anchored(s);
    && '\n' !in t
    && |name| >= 1 && '/' !in name[..|name| - 1]
    && |md5| == 32 && IsDigest(md5)
    && |name| + 38 <= |t|
    && t[|t| - |name| - 38..] == "/" + name + Md5Marker + md5
  }

  /** The last `/` among the first `n` characters of `t`. */
  function LastSlashBefore(t: string, n: nat): (r: Option<nat>)
    requires n <= |t|
    ensures r.Some? ==> r.value < n && t[r.value] == '/' && '/' !in t[r.value + 1..n]
    ensures r.None? ==> '/' !in t[..n]
    decreases n
  {
    if n == 0 then None
    else if t[n - 1] == '/' then Some(n - 1)
    else
      var r := LastSlashBefore(t, n - 1);
      assert t[..n] == t[..n - 1] + [t[n - 1]];
      if r.Some? then
        assert t[r.value + 1..n] == t[r.value + 1..n - 1] + [t[n - 1]];
        r
      else r
  }

  /** All characters of `d` are in the digest alphabet. */
  predicate IsDigest(d: string)
  {
    forall i :: 0 <= i < |d| ==> IsHashChar(d[i])
  }

  /** `REGEX_URL.match(s)`, giving both groups, or `None` when it does not match. */
  function Match(s: string): (r: Option<(string, string)>)
    ensures r.Some? ==> Matches(s, r.value.0, r.value.1)
    ensures r.None? ==> forall name, md5 :: !Matches(s, name, md5)
  {
    var t := Anchored(s);
    MatchNeeds(s);
    if |t| < 39 || '\n' in t || t[|t| - 37..|t| - 32] != Md5Marker || !IsDigest(t[|t| - 32..]) then
      None
    else
      match LastSlashBefore(t, |t| - 38)
      case None => None
      case Some(k) =>
        MatchFound(s, k);
        Some((t[k + 1..|t| - 37], t[|t| - 32..]))
  }

  /** What every match requires of the text; `Match` rejects the text when any of it fails. */
  lemma MatchNeeds(s: string)
    ensures forall name, md5 :: Matches(s, name, md5) ==>
      var t := Anchored(s);
      && 39 <= |t| && '\n' !in t
      && t[|t| - 37..|t| - 32] == Md5Marker && IsDigest(t[|t| - 32..])
      && '/' in t[..|t| - 38]
  {
    var t := Anchored(s);
    forall name, md5 | Matches(s, name, md5)
      ensures 39 <= |t| && t[|t| - 37..|t| - 32] == Md5Marker && IsDigest(t[|t| - 32..])
      ensures '/' in t[..|t| - 38]
    {
      MatchShape(s, name, md5);
      assert t[..|t| - 38][|t| - |name| - 38] == '/';
    }
  }

  /** The last `/` that leaves room for a non-empty name opens group 1. */
  lemma MatchFound(s: string, k: nat)
    requires var t := Anchored(s);
      && 39 <= |t| && '\n' !in t
      && t[|t| - 37..|t| - 32] == Md5Marker && IsDigest(t[|t| - 32..])
      && LastSlashBefore(t, |t| - 38) == Some(k)
    ensures var t := Anchored(s); Matches(s, t[k + 1..|t| - 37], t[|t| - 32..])
  {
    var t := Anchored(s);
    var name := t[k + 1..|t| - 37];
    var md5 := t[|t| - 32..];
    assert name[..|name| - 1] == t[k + 1..|t| - 38];
    assert t[|t| - 37..] == Md5Marker + md5;
    assert t[|t| - |name| - 38..] == [t[k]] + name + t[|t| - 37..];
  }

  /** Where a match puts the `/`, the marker and the digest, and where no `/` may be. */
  lemma MatchShape(s: string, name: string, md5: string)
    requires Matches(s, name, md5)
    ensures var t := Anchored(s);
      && t[|t| - |name| - 38] == '/'
      && (forall j :: |t| - |name| - 37 <= j < |t| - 38 ==> t[j] != '/')
      && t[|t| - 37..|t| - 32] == Md5Marker
      && t[|t| - 32..] == md5
      && t[|t| - |name| - 37..|t| - 37] == name
  {
    var t := Anchored(s);
    var start := |t| - |name| - 38;
    var tail := t[start..];
    assert tail == "/" + name + Md5Marker + md5;
    assert tail[0] == '/';
    assert tail[|name| + 1..|name| + 6] == Md5Marker;
    assert tail[|name| + 6..] == md5;
    assert tail[1..|name| + 1] == name;
    forall j | start + 1 <= j < |t| - 38
      ensures t[j] != '/'
    {
      assert t[j] == name[..|name| - 1][j - start - 1];
    }
  }

  /** The groups of a match are determined by the text: there is only one match. */
  lemma MatchUnique(s: string, n1: string, m1: string, n2: string, m2: string)
    requires Matches(s, n1, m1) && Matches(s, n2, m2)
    ensures n1 == n2 && m1 == m2
  {
    MatchShape(s, n1, m1);
    MatchShape(s, n2, m2);
  }

  /** `Match` finds exactly the groups the pattern describes. */
  lemma MatchIff(s: string, name: string, md5: string)
    ensures Match(s) == Some((name, md5)) <==> Matches(s, name, md5)
  {
    if Matches(s, name, md5) {
      MatchUnique(s, name, md5, Match(s).value.0, Match(s).value.1);
    }
  }
}
